=== FILE: README.md ===
# Simon Says game engine in Dafny

This project models the turn-taking engine of a browser "Simon Says" game
(`src/App.js`). The engine grows a random sequence of colored flashes one
color per level. The player must tap the sequence back. A wrong tap ends the
game and records the level if it beats the high score.

The React state hooks become one immutable record, `Engine.Game`. The start
button, the color buttons, the two `useEffect` hooks and the timer callbacks
become pure functions on that record. The random color is a parameter.

The source calls `setTimeout` at four places. Two of them defer a change of
game state:

- the `nextLevel` call, 1000 ms after the player completes the sequence
  (src/App.js:63);
- the `playSequence` call, 600 ms after a new level (src/App.js:45).

Each is recorded in the state (`advancePending`, `playbacks`) and fired by an
explicit event (`AdvanceFires`, `PlaybackFires`). The player can tap while
either timer is pending. `Engine.Step` applies one event and `Engine.Run` a
list of events.

The per-flash timers at src/App.js:30 become the flash schedule of `Playback`,
which `Engine.Output` reports when a playback fires. The 400 ms reset at
src/App.js:23 only clears the highlighted button.

Modules:

- `Wrappers`: `Option`.
- `Colors`: the four colors, the `colors` array, and the color names.
- `Playback`: the flash schedule of `playSequence`.
- `Engine`: the state, the transitions and the event step.
- `Invariants`: per-transition facts and the invariants of reachable states.
- `Rounds`: whole rounds of taps.
- `Scenarios`: two example plays worked through.

`checkSequence` reads `userSequence[i]` and `sequence[i]` the JavaScript way.
An index outside an array yields `undefined`, modelled as `None` by
`Engine.Lookup`. So a tap past the end of the sequence never equals the
sequence element, and it ends the game. This can happen when the player taps
again before the pending `nextLevel` timer fires: a tap is accepted whenever
`gameStarted` is true, including before the playback shows the new level.

The code does not guard `nextLevel` with `gameStarted`. So a `nextLevel` timer
armed before such a loss still fires after it. That step adds a level and a
color to a stopped game. The model keeps this behaviour. The invariants hold
through it.

## Model

| member | source | states |
|---|---|---|
| `Colors.NextColor` | src/App.js:36-37 | index k of the draw gives the color at position k of the `colors` array, and no other index gives that color |
| `Colors.NextColorBijective` | src/App.js:3 | every color can be drawn, and the four indices of the draw give four different colors |
| `Colors.NameInjective` | src/App.js:51 | two color names are equal iff the colors are, so the string comparison is color comparison |
| `Playback.ScheduleFrom` | src/App.js:29-31 | one timer per element, element i of the sequence at offset 800 times its forEach index |
| `Playback.Schedule` | src/App.js:29-31 | a playback has one flash per element; flash i fires at 800*i ms and shows element i |
| `Playback.ScheduleStrictlyIncreasing` | src/App.js:29-31 | flash offsets strictly increase, so flashes are never reordered or merged |
| `Playback.ScheduleShowsSequence` | src/App.js:29-31 | the colors of a playback, in firing order, are exactly the sequence |
| `Playback.ScheduleExtend` | src/App.js:29-31 | playing a one-longer sequence replays the old schedule and adds one flash 800 ms after the last |
| `Engine.NextLevel` | src/App.js:39-46 | a new level adds exactly one to the level, keeps the old sequence as a prefix, appends the drawn color, clears the taps, arms one playback of the new sequence, and changes nothing else (started, status, high score, advance timer) |
| `Engine.Start` | src/App.js:75-81 | Start gives the page-load state with only the high score carried over, the game running and the status "starting" |
| `Engine.AutoAdvance` | src/App.js:67-69 | the level-0 effect changes the state iff the game is running at level 0, and then opens level 1 with the drawn color and no taps, arms one playback of the new sequence, and changes nothing else (started, status, high score, advance timer) |
| `Engine.Tap` | src/App.js:83-85 | a tap is ignored unless the game is running; otherwise it appends exactly the tapped color and changes nothing else |
| `Engine.Check` | src/App.js:48-65 | a last tap past the end or differing from the sequence ends the game with status lost and high score max(high score, level); a full match arms the `nextLevel` timer; a shorter match changes nothing; the high score never drops |
| `Engine.TapsChanged` | src/App.js:71-73 | with no taps nothing happens; a wrong or past-the-end last tap stops the game with status lost and high score max(high score, level); a correct last tap keeps `started`, status and high score, arms the advance timer when the taps reach the end of the sequence and otherwise changes nothing; the sequence, taps and level never change |
| `Engine.Press` | src/App.js:48-87 | a color press is ignored when not running; otherwise it records the tap and either loses (status lost, high score max(high score, level)) when the tap is wrong or past the end, or arms the advance timer exactly when the taps reach the end of the sequence |
| `Engine.FireAdvance` | src/App.js:63 | the armed `nextLevel` timer, whether or not the game is still running, disarms itself and gives level+1, the sequence plus the drawn color and no taps, arms one playback of the new sequence (line 45), and changes nothing else (started, status, high score); with no timer armed nothing happens |
| `Engine.FirePlayback` | src/App.js:26-28 | the oldest armed playback fires: it leaves the queue and sets the status to showing, changing nothing else; with none armed nothing happens |
| `Engine.Output` | src/App.js:20-31 | a playback flashes its captured sequence, element i at 800*i ms; an accepted tap flashes its color at once (the `flashButton` call at line 86); nothing else flashes |
| `Invariants.InitValid` | src/App.js:12-17 | the initial state satisfies the invariant, is not started, and has high score 0 |
| `Invariants.StartResets` | src/App.js:75-81 | Start empties the sequence and the taps, sets level 0 and started, keeps the high score, gives a valid state from any state, and applying it twice equals applying it once |
| `Invariants.StartThenAutoAdvance` | src/App.js:67-69 | after Start the level-0 effect opens level 1 with the one drawn color, no taps, game running |
| `Invariants.CheckAgainAfterLoss` | src/App.js:71-73 | re-running the check on a lost game changes nothing |
| `Invariants.NoSecondAdvance` | src/App.js:62-64 | while an advance timer is armed in a running valid game, the next tap loses, so no second timer is armed |
| `Invariants.StepEndsGameIff` | src/App.js:51-59 | an event stops a running game iff it is a mismatching tap, and the status is then lost |
| `Invariants.StepHighScore` | src/App.js:54-56 | the high score changes only on a loss, to max(high score, level); it never decreases |
| `Invariants.NextLevelPreservesValid` | src/App.js:39-46 | a new level keeps `level == |sequence|`, the prefix invariant and the armed playbacks as prefixes of the sequence |
| `Invariants.StepPreservesValid` | src/App.js:39-87 | every event keeps the invariant: level counts the sequence, running taps are a prefix of the sequence, an armed advance follows a completed non-empty round, armed playbacks are prefixes of the sequence |
| `Invariants.RunPreservesValid` | src/App.js:39-87 | any run of events from a valid state ends in a valid state |
| `Invariants.RunHighScoreMonotone` | src/App.js:54-56 | over any run of events the high score never decreases |
| `Invariants.ReachableValid` | src/App.js:12-87 | every state reachable from page load is valid, in particular `level == |sequence|` |
| `Invariants.NextPlaybackExtendsPrevious` | src/App.js:42-45 | a new level arms one more playback, of the new sequence, after those already armed; its schedule is the previous level's schedule plus one flash for the new color; when no other playback is armed it is the next one to fire |
| `Rounds.CorrectPresses` | src/App.js:48-73 | correct taps only append to the taps and arm the advance timer exactly when they reach the end of the sequence |
| `Rounds.RoundWon` | src/App.js:39-64 | repeating the whole sequence and letting the timer fire gives level+1, the old sequence plus the drawn color, and no taps |
| `Rounds.FirstMismatchLoses` | src/App.js:49-59 | after any number of correct taps, the first wrong tap (or one past the end) ends the game with level and sequence kept and the high score max(high score, level) |
| `Scenarios.StartTapAdvance` | src/App.js:39-87 | Start drawing red, tap red, timer drawing x: level 2, sequence red, x, no taps |
| `Scenarios.WrongThirdTap` | src/App.js:48-59 | at level 3 with blue, green, red, the taps blue, green, yellow lose and raise a lower high score to 3 |

## Left out

- Rendering, inline CSS and the JSX tree (src/App.js:89-298): presentation only.
- Audio objects and `play().catch` (src/App.js:4-9, 22): foreign browser calls whose errors are swallowed. `Engine.Output` only lists the flashes an event shows.
- The 400 ms reset of the active button (src/App.js:23): presentation only.
- React's batching of state updates: each handler, effect or timer callback is one step, with all its `setState` calls applied together. This is React 18's automatic batching. Under the legacy `ReactDOM.render` root, the updates in a timer callback such as `nextLevel` (src/App.js:40-44) would each render on their own. The effects could then run between them, which the model does not cover.
- Real timer delays (600 ms and 1000 ms): timers are explicit events, so any order of taps and timer firings is covered, including orders the delays rule out.
- Timers armed before a restart: `Engine.Start` drops them. In the source they still fire after Start with the state they captured.
- `Math.random` and the floating-point index computation (src/App.js:37): the drawn index, or the drawn color, is a parameter.
- Exact status texts: `Engine.Status` names the four states only. The "Level N" text is not modelled, because `playSequence` reads a closure-captured level that lags behind.
- High-score persistence: this file keeps the high score in memory only.

=== FILE: colors.dfy ===
/** The four button colors of the game and the fixed `colors` array from
    which a new sequence element is drawn. */
module Colors {
  datatype Color = Red | Blue | Green | Yellow

  /** The `colors` array, in its declared order. */
  const Palette: seq<Color> := [Red, Blue, Green, Yellow]

  /** The string the page uses for a color (button key, sound key). */
  function Name(c: Color): string {
    match c
    case Red => "red"
    case Blue => "blue"
    case Green => "green"
    case Yellow => "yellow"
  }

  /** `generateNextColor`: the random draw `Math.floor(Math.random() * 4)` is
      taken as the index `k` it produces, so `k` ranges over 0..3. */
  function NextColor(k: nat): (c: Color)
    requires k < |Palette|
    ensures forall j :: 0 <= j < |Palette| ==> (Palette[j] == c <==> j == k)
  {
    Palette[k]
  }

  /** Comparing colors is the same as comparing their names, so the source's
      string comparison `!==` is color inequality. */
  lemma NameInjective(a: Color, b: Color)
    ensures Name(a) == Name(b) <==> a == b
  {
  }

  /** Every color can be drawn, and each by exactly one index: the four
      outcomes of the draw are the four colors without repetition. */
  lemma NextColorBijective()
    ensures forall c: Color :: c in Palette
    ensures forall j, k :: 0 <= j < k < |Palette| ==> NextColor(j) != NextColor(k)
  {
    forall c: Color
      ensures c in Palette
    {
      match c
      case Red => assert Palette[0] == c;
      case Blue => assert Palette[1] == c;
      case Green => assert Palette[2] == c;
      case Yellow => assert Palette[3] == c;
    }
  }
}

=== FILE: engine.dfy ===
/** The turn-taking state machine of the game component. Each React state
    hook becomes a field of `Game`; each handler, effect and timer callback
    becomes a pure function from the state before it to the state after it.
    The two kinds of deferred callback the engine schedules are recorded in
    the state and fired by explicit steps:
    - `advancePending`: the `nextLevel` timer armed when the player completes
      the sequence;
    - `playbacks`: the `playSequence` timers armed by `nextLevel`, oldest
      first, each holding the sequence it captured. */
module Engine {
  import opened Wrappers
  import opened Colors
  import opened Playback

  /** The status line, without its exact wording. */
  datatype Status = Idle | Starting | Showing | Lost

  datatype Game = Game(
    sequence: seq<Color>,
    userSequence: seq<Color>,
    level: nat,
    started: bool,
    status: Status,
    highScore: nat,
    advancePending: bool,
    playbacks: seq<seq<Color>>)

  /** The state when the page loads. */
  const Init: Game := Game([], [], 0, false, Idle, 0, false, [])

  predicate IsPrefix(a: seq<Color>, b: seq<Color>) {
    |a| <= |b| && a == b[..|a|]
  }

  function Max(a: nat, b: nat): nat {
    if a < b then b else a
  }

  /** A JavaScript array read `s[i]`: `undefined` (here `None`) outside the
      array, including at index -1. */
  function Lookup(s: seq<Color>, i: int): Option<Color> {
    if 0 <= i && i < |s| then Some(s[i]) else None
  }

  /** `startGame`: forget the sequence and the taps and start at level 0.
      Timers armed before the restart are dropped (see the README). */
  function Start(g: Game): (r: Game)
    ensures r == Init.(started := true, status := Starting, highScore := g.highScore)
  {
    g.(sequence := [], userSequence := [], level := 0, started := true,
       status := Starting, advancePending := false, playbacks := [])
  }

  /** `nextLevel` with `c` the color `generateNextColor` drew: one more level,
      one more color, no taps yet, and a playback of the new sequence armed. */
  function NextLevel(g: Game, c: Color): (r: Game)
    ensures r.level == g.level + 1
    ensures |r.sequence| == |g.sequence| + 1
    ensures IsPrefix(g.sequence, r.sequence) && r.sequence[|g.sequence|] == c
    ensures r.userSequence == []
    ensures r.started == g.started && r.highScore == g.highScore
    ensures r.playbacks == g.playbacks + [r.sequence]
    ensures r.(level := g.level, sequence := g.sequence, userSequence := g.userSequence,
               playbacks := g.playbacks) == g
  {
    var s := g.sequence + [c];
    g.(level := g.level + 1, sequence := s, userSequence := [],
       playbacks := g.playbacks + [s])
  }

  /** The effect that leaves level 0 as soon as a game has been started. */
  function AutoAdvance(g: Game, c: Color): (r: Game)
    ensures r != g <==> g.started && g.level == 0
    ensures g.started && g.level == 0 ==>
              && r.level == 1 && r.sequence == g.sequence + [c] && r.userSequence == []
              && r.playbacks == g.playbacks + [r.sequence]
              && r.(level := g.level, sequence := g.sequence, userSequence := g.userSequence,
                    playbacks := g.playbacks) == g
  {
    if g.started && g.level == 0 then NextLevel(g, c) else g
  }

  /** `handleClick` without its flash: the tap is recorded only while a game
      is running. */
  function Tap(g: Game, c: Color): (r: Game)
    ensures !g.started ==> r == g
    ensures g.started ==> r.userSequence == g.userSequence + [c]
    ensures r.(userSequence := g.userSequence) == g
  {
    if !g.started then g else g.(userSequence := g.userSequence + [c])
  }

  /** `checkSequence`: compare the latest tap with the sequence element at the
      same index, reading both arrays the JavaScript way. A mismatch ends the
      game and records the level if it beats the high score; a complete match
      arms the `nextLevel` timer; a partial match changes nothing. */
  function Check(g: Game): (r: Game)
    ensures LastTapWrong(g) ==>
              r == g.(status := Lost, started := false, highScore := Max(g.highScore, g.level))
    ensures !LastTapWrong(g) && |g.userSequence| == |g.sequence| ==> r == g.(advancePending := true)
    ensures !LastTapWrong(g) && |g.userSequence| < |g.sequence| ==> r == g
    ensures r.highScore >= g.highScore
  {
    var i := |g.userSequence| - 1;
    if Lookup(g.userSequence, i) != Lookup(g.sequence, i) then
      g.(status := Lost, highScore := Max(g.highScore, g.level), started := false)
    else if |g.userSequence| == |g.sequence| then
      g.(advancePending := true)
    else
      g
  }

  /** The effect that runs `checkSequence` whenever the taps change and are
      not empty. */
  function TapsChanged(g: Game): (r: Game)
    ensures |g.userSequence| == 0 ==> r == g
    ensures LastTapWrong(g) ==>
              !r.started && r.status == Lost && r.highScore == Max(g.highScore, g.level)
    ensures !LastTapWrong(g) ==>
              r.started == g.started && r.status == g.status && r.highScore == g.highScore
    ensures !LastTapWrong(g) && |g.userSequence| < |g.sequence| ==> r == g
    ensures !LastTapWrong(g) && 0 < |g.userSequence| == |g.sequence| ==> r.advancePending
    ensures r.sequence == g.sequence && r.userSequence == g.userSequence && r.level == g.level
  {
    if |g.userSequence| > 0 then Check(g) else g
  }

  /** A press of a color button: the tap and the check that follows it. */
  function Press(g: Game, c: Color): (r: Game)
    ensures !g.started ==> r == g
    ensures g.started && LastTapWrong(Tap(g, c)) ==>
              r == Tap(g, c).(status := Lost, started := false,
                              highScore := Max(g.highScore, g.level))
    ensures g.started && !LastTapWrong(Tap(g, c)) ==>
              r == Tap(g, c).(advancePending :=
                                g.advancePending || |g.userSequence| + 1 == |g.sequence|)
  {
    if !g.started then g else TapsChanged(Tap(g, c))
  }

  /** The armed `nextLevel` timer fires, with `c` the color it draws. It does
      not look at `started`, so a timer armed before a loss still advances. */
  function FireAdvance(g: Game, c: Color): (r: Game)
    ensures !g.advancePending ==> r == g
    ensures g.advancePending ==>
              && !r.advancePending
              && r.level == g.level + 1 && r.sequence == g.sequence + [c]
              && r.userSequence == []
              && r.playbacks == g.playbacks + [r.sequence]
              && r.(level := g.level, sequence := g.sequence, userSequence := g.userSequence,
                    playbacks := g.playbacks, advancePending := true) == g
  {
    if g.advancePending then NextLevel(g.(advancePending := false), c) else g
  }

  /** The oldest armed `playSequence` timer fires: it updates the status line
      (and flashes the sequence it captured, see `Output`). */
  function FirePlayback(g: Game): (r: Game)
    ensures |g.playbacks| == 0 ==> r == g
    ensures |g.playbacks| > 0 ==>
              && r.playbacks == g.playbacks[1..] && r.status == Showing
              && r.(status := g.status, playbacks := g.playbacks) == g
  {
    if |g.playbacks| == 0 then g
    else g.(status := Showing, playbacks := g.playbacks[1..])
  }

  /** Everything that can happen next: a button press or a timer firing.
      The Start button is followed at once by the level-0 effect, which
      draws `next`. */
  datatype Event =
    | PressStart(next: Color)
    | PressColor(color: Color)
    | AdvanceFires(drawn: Color)
    | PlaybackFires

  function Step(g: Game, e: Event): Game {
    match e
    case PressStart(c) => AutoAdvance(Start(g), c)
    case PressColor(c) => Press(g, c)
    case AdvanceFires(c) => FireAdvance(g, c)
    case PlaybackFires => FirePlayback(g)
  }

  /** The flashes an event shows: the whole captured sequence on a playback,
      the pressed color at once on an accepted tap. */
  function Output(g: Game, e: Event): (r: seq<Flash>)
    ensures e.PlaybackFires? && |g.playbacks| > 0 ==>
              && |r| == |g.playbacks[0]|
              && forall i :: 0 <= i < |r| ==> r[i] == Flash(FlashIntervalMs * i, g.playbacks[0][i])
    ensures e.PressColor? && g.started ==> r == [Flash(0, e.color)]
    ensures r != [] ==> (e.PlaybackFires? && |g.playbacks| > 0) || (e.PressColor? && g.started)
  {
    match e
    case PlaybackFires => if |g.playbacks| == 0 then [] else Schedule(g.playbacks[0])
    case PressColor(c) => if g.started then [Flash(0, c)] else []
    case _ => []
  }

  function Run(g: Game, es: seq<Event>): Game
    decreases |es|
  {
    if |es| == 0 then g else Run(Step(g, es[0]), es[1..])
  }

  /** Presses the color buttons `cs` one after another. */
  function Presses(g: Game, cs: seq<Color>): Game
    decreases |cs|
  {
    if |cs| == 0 then g else Presses(Press(g, cs[0]), cs[1..])
  }

  /** The latest tap disagrees with the sequence: it lands past its end, or
      on a different color. With no taps there is nothing to disagree. */
  predicate LastTapWrong(g: Game) {
    var i := |g.userSequence| - 1;
    0 <= i && (i >= |g.sequence| || g.userSequence[i] != g.sequence[i])
  }

  /** The event is a tap that ends a running game. */
  predicate Loses(g: Game, e: Event) {
    e.PressColor? && g.started && LastTapWrong(Tap(g, e.color))
  }
}

=== FILE: invariants.dfy ===
/** What each transition promises, and the invariants every reachable state
    keeps: the level counts the sequence, the taps of a running game are a
    prefix of the sequence, and the high score never goes down. */
module Invariants {
  import opened Colors
  import opened Playback
  import opened Engine

  /** The state invariant. An armed `nextLevel` timer always follows a
      completed, non-empty round, and every armed playback shows a prefix of
      the current sequence. */
  predicate Valid(g: Game) {
    && g.level == |g.sequence|
    && (g.started ==> IsPrefix(g.userSequence, g.sequence))
    && (g.advancePending ==> |g.sequence| > 0)
    && (g.started && g.advancePending ==> g.userSequence == g.sequence)
    && (forall i :: 0 <= i < |g.playbacks| ==> IsPrefix(g.playbacks[i], g.sequence))
  }

  lemma InitValid()
    ensures Valid(Init) && !Init.started && Init.highScore == 0
  {
  }

  /** Start resets the game whatever the state before it, so pressing it twice
      is the same as pressing it once. */
  lemma StartResets(g: Game)
    ensures Start(g).sequence == [] && Start(g).userSequence == []
    ensures Start(g).level == 0 && Start(g).started
    ensures Start(g).highScore == g.highScore
    ensures Valid(Start(g))
    ensures Start(Start(g)) == Start(g)
  {
  }

  /** Right after Start the level-0 effect opens level 1 with a one-color
      sequence. */
  lemma StartThenAutoAdvance(g: Game, c: Color)
    ensures Step(g, PressStart(c)).level == 1
    ensures Step(g, PressStart(c)).sequence == [c]
    ensures Step(g, PressStart(c)).userSequence == []
    ensures Step(g, PressStart(c)).started
    ensures Step(g, PressStart(c)).highScore == g.highScore
  {
  }

  /** A lost game stays lost when the check runs again (the effect re-runs it
      when the high score changes), and nothing changes the second time. */
  lemma CheckAgainAfterLoss(g: Game)
    requires |g.userSequence| > 0 && !Check(g).started && g.started
    ensures Check(Check(g)) == Check(g)
  {
  }

  /** In a valid running state the check never arms a second `nextLevel`
      timer while one is already armed. */
  lemma NoSecondAdvance(g: Game, c: Color)
    requires Valid(g) && g.started && g.advancePending
    ensures !Press(g, c).started
  {
  }

  /** A press ends a running game exactly when the tap mismatches; the game
      is then lost. */
  lemma StepEndsGameIff(g: Game, e: Event)
    ensures g.started && !Step(g, e).started <==> Loses(g, e)
    ensures Loses(g, e) ==> Step(g, e).status == Lost
  {
  }

  /** The high score moves only on a loss, and then to the larger of itself
      and the level; in particular it never decreases. */
  lemma StepHighScore(g: Game, e: Event)
    ensures Step(g, e).highScore == if Loses(g, e) then Max(g.highScore, g.level) else g.highScore
    ensures Step(g, e).highScore >= g.highScore
  {
  }

  /** A new level grows the level and the sequence together and keeps the
      old sequence as its prefix. */
  lemma NextLevelPreservesValid(g: Game, c: Color)
    requires Valid(g) && !g.advancePending
    ensures Valid(NextLevel(g, c))
    ensures IsPrefix(g.sequence, NextLevel(g, c).sequence)
  {
    var r := NextLevel(g, c);
    forall i | 0 <= i < |r.playbacks|
      ensures IsPrefix(r.playbacks[i], r.sequence)
    {
      if i < |g.playbacks| {
        assert r.playbacks[i] == g.playbacks[i];
        assert r.sequence[..|g.sequence|] == g.sequence;
      }
    }
  }

  lemma StepPreservesValid(g: Game, e: Event)
    requires Valid(g)
    ensures Valid(Step(g, e))
  {
    match e
    case PressStart(c) =>
      NextLevelPreservesValid(Start(g), c);
    case PressColor(c) =>
      if g.started {
        var t := Tap(g, c);
        if !LastTapWrong(t) {
          assert t.userSequence == t.sequence[..|t.userSequence|];
        }
      }
    case AdvanceFires(c) =>
      if g.advancePending {
        NextLevelPreservesValid(g.(advancePending := false), c);
      }
    case PlaybackFires =>
      var r := FirePlayback(g);
      if |g.playbacks| > 0 {
        assert forall i :: 0 <= i < |r.playbacks| ==> r.playbacks[i] == g.playbacks[i + 1];
      }
  }

  /** Every state reachable from a valid one is valid. */
  lemma {:induction false} RunPreservesValid(g: Game, es: seq<Event>)
    requires Valid(g)
    ensures Valid(Run(g, es))
    decreases |es|
  {
    if |es| > 0 {
      StepPreservesValid(g, es[0]);
      RunPreservesValid(Step(g, es[0]), es[1..]);
    }
  }

  /** Over any run the high score never decreases. */
  lemma {:induction false} RunHighScoreMonotone(g: Game, es: seq<Event>)
    ensures Run(g, es).highScore >= g.highScore
    decreases |es|
  {
    if |es| > 0 {
      StepHighScore(g, es[0]);
      RunHighScoreMonotone(Step(g, es[0]), es[1..]);
    }
  }

  /** Every state the page can reach keeps the invariant. */
  lemma ReachableValid(es: seq<Event>)
    ensures Valid(Run(Init, es))
    ensures Run(Init, es).level == |Run(Init, es).sequence|
  {
    RunPreservesValid(Init, es);
  }

  /** The playback armed by a new level shows the previous playback's
      flashes unchanged, then the new color one interval later. */
  lemma NextPlaybackExtendsPrevious(g: Game, c: Color)
    ensures NextLevel(g, c).playbacks == g.playbacks + [g.sequence + [c]]
    ensures Schedule(g.sequence + [c]) == Schedule(g.sequence) + [Flash(FlashIntervalMs * |g.sequence|, c)]
    ensures |g.playbacks| == 0 ==>
              Output(NextLevel(g, c), PlaybackFires)
              == Schedule(g.sequence) + [Flash(FlashIntervalMs * |g.sequence|, c)]
  {
    ScheduleExtend(g.sequence, c);
  }
}

=== FILE: playback.dfy ===
/** The flash schedule `playSequence` sets up: one timer per element of the
    sequence, the element at index i firing 800 ms times i after playback
    starts. Real time is not modelled; the schedule is the list of
    (offset, color) pairs those timers are created with. */
module Playback {
  import opened Colors

  /** Milliseconds between the start of two consecutive flashes. */
  const FlashIntervalMs: nat := 800

  datatype Flash = Flash(offsetMs: nat, color: Color)

  /** The timers `forEach` creates for `s` when the first element of `s`
      carries index `first`. */
  function ScheduleFrom(s: seq<Color>, first: nat): (r: seq<Flash>)
    ensures |r| == |s|
    ensures forall i :: 0 <= i < |s| ==> r[i] == Flash(FlashIntervalMs * (first + i), s[i])
    decreases |s|
  {
    if |s| == 0 then []
    else [Flash(FlashIntervalMs * first, s[0])] + ScheduleFrom(s[1..], first + 1)
  }

  /** The flashes of one playback of `s`. */
  function Schedule(s: seq<Color>): (r: seq<Flash>)
    ensures |r| == |s|
    ensures forall i :: 0 <= i < |s| ==> r[i].offsetMs == FlashIntervalMs * i
    ensures forall i :: 0 <= i < |s| ==> r[i].color == s[i]
  {
    ScheduleFrom(s, 0)
  }

  /** The colors of a playback, in firing order. */
  function ColorsOf(r: seq<Flash>): (cs: seq<Color>)
    ensures |cs| == |r|
    ensures forall i :: 0 <= i < |r| ==> cs[i] == r[i].color
  {
    if |r| == 0 then [] else [r[0].color] + ColorsOf(r[1..])
  }

  /** Flashes fire at strictly increasing offsets, so they are never
      reordered or coalesced. */
  lemma ScheduleStrictlyIncreasing(s: seq<Color>)
    ensures forall i, j :: 0 <= i < j < |s| ==> Schedule(s)[i].offsetMs < Schedule(s)[j].offsetMs
  {
  }

  /** A playback shows exactly the sequence, in order. */
  lemma ScheduleShowsSequence(s: seq<Color>)
    ensures ColorsOf(Schedule(s)) == s
  {
  }

  /** Playing a sequence one color longer replays the old schedule unchanged
      and then adds one flash, one interval after the last old one. */
  lemma ScheduleExtend(s: seq<Color>, c: Color)
    ensures Schedule(s + [c]) == Schedule(s) + [Flash(FlashIntervalMs * |s|, c)]
  {
    var a := Schedule(s + [c]);
    var b := Schedule(s) + [Flash(FlashIntervalMs * |s|, c)];
    assert |a| == |b|;
    forall i | 0 <= i < |a|
      ensures a[i] == b[i]
    {
      if i < |s| {
        assert (s + [c])[i] == s[i];
      }
    }
  }
}

=== FILE: rounds.dfy ===
/** Whole rounds: the player repeats the sequence correctly, or slips. */
module Rounds {
  import opened Colors
  import opened Engine
  import opened Invariants

  /** Correct taps only grow the taps; the `nextLevel` timer is armed exactly
      when they reach the end of the sequence. */
  lemma {:induction false} CorrectPresses(g: Game, cs: seq<Color>)
    requires Valid(g) && g.started
    requires |cs| > 0 && IsPrefix(g.userSequence + cs, g.sequence)
    ensures Presses(g, cs) == g.(userSequence := g.userSequence + cs,
                                 advancePending := |g.userSequence + cs| == |g.sequence|)
    decreases |cs|
  {
    var c := cs[0];
    var u := g.userSequence;
    assert (u + cs)[|u|] == c;
    assert !LastTapWrong(Tap(g, c));
    var g1 := Press(g, c);
    assert g1 == g.(userSequence := u + [c], advancePending := |u + [c]| == |g.sequence|);
    if |cs| == 1 {
      assert u + cs == u + [c];
    } else {
      StepPreservesValid(g, PressColor(c));
      assert Step(g, PressColor(c)) == g1;
      assert (u + [c]) + cs[1..] == u + cs;
      CorrectPresses(g1, cs[1..]);
    }
  }

  /** Repeating the whole sequence from a fresh level and letting the timer
      fire opens the next level: one more level, the old sequence plus the
      drawn color, no taps. */
  lemma RoundWon(g: Game, c: Color)
    requires Valid(g) && g.started && g.userSequence == [] && |g.sequence| > 0
    ensures var r := FireAdvance(Presses(g, g.sequence), c);
            && r.level == g.level + 1
            && r.sequence == g.sequence + [c]
            && r.userSequence == []
            && r.started && r.highScore == g.highScore
  {
    assert [] + g.sequence == g.sequence;
    CorrectPresses(g, g.sequence);
  }

  /** However many correct taps come first, the first wrong one ends the
      game, keeps the level and records it if it beats the high score. */
  lemma FirstMismatchLoses(g: Game, cs: seq<Color>, bad: Color)
    requires Valid(g) && g.started
    requires IsPrefix(g.userSequence + cs, g.sequence)
    requires var n := |g.userSequence + cs|; n == |g.sequence| || bad != g.sequence[n]
    ensures var r := Presses(g, cs + [bad]);
            && !r.started && r.status == Lost
            && r.level == g.level && r.sequence == g.sequence
            && r.highScore == Max(g.highScore, g.level)
  {
    var g1 := if |cs| == 0 then g else Presses(g, cs);
    if |cs| > 0 {
      CorrectPresses(g, cs);
      PressesAppend(g, cs, [bad]);
    } else {
      assert cs + [bad] == [bad];
    }
    assert g1.userSequence == g.userSequence + cs;
    assert Presses(g1, [bad]) == Press(g1, bad);
  }

  lemma {:induction false} PressesAppend(g: Game, a: seq<Color>, b: seq<Color>)
    ensures Presses(g, a + b) == Presses(Presses(g, a), b)
    decreases |a|
  {
    if |a| == 0 {
      assert a + b == b;
    } else {
      assert (a + b)[0] == a[0];
      assert (a + b)[1..] == a[1..] + b;
      PressesAppend(Press(g, a[0]), a[1..], b);
    }
  }
}

=== FILE: scenarios.dfy ===
/** Two example plays, replayed on the model. */
module Scenarios {
  import opened Colors
  import opened Engine
  import opened Rounds

  /** Start draws red; the player taps red; the timer fires and draws `x`:
      the game is at level 2 with sequence red, x and no taps. */
  lemma StartTapAdvance(x: Color)
    ensures var r := Run(Init, [PressStart(Red), PressColor(Red), AdvanceFires(x)]);
            && r.sequence == [Red, x] && r.level == 2 && r.userSequence == []
            && r.started && r.highScore == 0
  {
    var g1 := Step(Init, PressStart(Red));
    assert g1.sequence == [Red] && g1.started;
    var g2 := Step(g1, PressColor(Red));
    assert g2.advancePending && g2.userSequence == [Red];
    assert Run(Init, [PressStart(Red), PressColor(Red), AdvanceFires(x)])
        == Run(g1, [PressColor(Red), AdvanceFires(x)]);
    assert Run(g1, [PressColor(Red), AdvanceFires(x)]) == Run(g2, [AdvanceFires(x)]);
  }

  /** At level 3 with sequence blue, green, red, the taps blue, green, yellow
      lose at the third tap and the high score becomes 3 if it was lower. */
  lemma WrongThirdTap(h: nat)
    requires h < 3
    ensures var g := Game([Blue, Green, Red], [], 3, true, Showing, h, false, []);
            var r := Presses(g, [Blue, Green, Yellow]);
            !r.started && r.status == Lost && r.highScore == 3
  {
    var g := Game([Blue, Green, Red], [], 3, true, Showing, h, false, []);
    FirstMismatchLoses(g, [Blue, Green], Yellow);
    assert [Blue, Green] + [Yellow] == [Blue, Green, Yellow];
  }
}

=== FILE: wrappers.dfy ===
/** The optional value used for JavaScript array reads that may yield
    `undefined`. */
module Wrappers {

  datatype Option<+T> = None | Some(value: T)
}
